=== FILE: README.md ===
# sstupid, modelled in Dafny

sstupid is a small terminal program. It reads `~/.ssh/config` and shows one
list entry per line whose lower-cased text contains `host ` and not ` *`. That
is a `Host <alias>` line, but also a commented-out `# Host old-box`, a
`Match host bastion` line, or a HostName line whose value ends in `host` and is
followed by a space; a `Host *` line opens nothing. When the user picks an
entry with Enter, it copies `ssh ` followed by the entry's text before its
first `:` to the clipboard, which for `Host <alias>` is `ssh <alias>`. This
project models the program's logic as pure Dafny functions and proves
properties about them:

- **The config scanner** (the loop in `main`). It makes one forward pass over
  the lines of the file, split on `"\n"`, and builds the list's display
  strings:
  - a Host line opens an entry: the lower-cased line with its first
    `"host "` removed and `": "` appended;
  - a HostName line appends `@<value>` to the last entry;
  - a User line splices the user in front of the first `@` of the last
    entry.
- **The command formatter** (`View`). It takes the text of the choice before
  the first `:` and prefixes it with `"ssh "`.
- **The key handling** (`Update`). Ctrl+C and Enter quit. Enter on an item
  records it as the choice.

The string surgery is modelled as written, on top of small specified
counterparts of Go's `strings` helpers: ASCII `ToLower`, `Index`/`Contains`,
`Replace(s, old, new, 1)`, `Trim` with a cutset, and `Split`/`Join`.

Files:

- `wrappers.dfy`: `Option` and `Result`.
- `go_strings.dfy` (module `GoStrings`): the `strings` helpers and their
  lemmas.
- `config_parser.dfy` (module `ConfigParser`):
  - line classification, the loop body `Step`, and the loop `Parse`, a left
    fold stopping at the first fault;
  - the loop method `ScanLines`;
  - the properties of the scan.
- `selector.dfy` (module `Selector`): `Update`, `CopyCommand` and `View`.
- `pipeline.dfy` (module `Pipeline`):
  - lemmas that connect the scanner to the formatter;
  - worked configurations, such as `Host foo` / `HostName 1.2.3.4` /
    `User bob`.

A HostName or User line that comes before any Host line makes the Go loop
index `items[len(items)-1]` on an empty slice (main.go:127, 129). That is a
runtime panic. The model follows the code: `Step` returns
`Failure(NoEntryToAmend(i))` and the scan stops there.

The model also shows what the loop does with `Host *`. That line fails the
Host test, because it holds `" *"`, so it opens nothing. A User or HostName
line after it amends the entry opened before it, when there is one
(`Pipeline.ExampleWildcardBlock`). When `Host *` comes first, there is no entry
yet, and such a line is the same runtime panic (`Pipeline.ExampleWildcardFirst`).

## Model

| member | source | states |
|---|---|---|
| ConfigParser.Classify | main.go:114-128 | The branch a line takes: the three substring tests on the lower-cased line, in the loop's order. It has no contract of its own. HostTestRunsFirst, Pipeline.HostLineOf, Pipeline.HostNameLineOf and Pipeline.UserLineOf state which lines land in which branch. |
| ConfigParser.HostItem | main.go:116-124 | The display string a Host line opens. HostItemShape and HostItemEndsWithColon state its shape. |
| ConfigParser.HostNameValue | main.go:127 | The value of a HostName line. DirectiveValueOf and Pipeline.HostNameLineOf state what it is for a well-formed line. |
| ConfigParser.UserValue | main.go:140 | The value of a User line. DirectiveValueOf and Pipeline.UserLineOf state what it is for a well-formed line. |
| ConfigParser.AddHostName | main.go:127 | A HostName line's rewrite of the last entry: "@" and the value appended. AmendOrderIrrelevant and Pipeline.BlockComposes state how it combines with AddUser. |
| ConfigParser.AddUser | main.go:129-143 | A User line's rewrite of the last entry. AddUserNoAt, AddUserOneAt and AddUserDropsTail state it for entries with zero, one, and two or more '@'. |
| ConfigParser.Parse | main.go:113-146 | The loop over all lines, as a left fold of Step from the empty state that stops at the first fault. Its properties are the lemmas ParseEnumeratesHosts, ParseFaultsIffOrphan, ParseFaultLine, ParseFaultSticks and ParseKeepsHostItem. ScanLines shows the loop method computes it. |
| ConfigParser.ParseConfig | main.go:109-146 | Splits the file on "\n" and scans the lines. EmptyConfig states the empty file. |
| ConfigParser.Step | main.go:113-145 | One loop iteration. A Host line appends exactly its entry and its own index. A line that is neither a Host, HostName nor User line changes nothing. A HostName or User line keeps the index list, the entry count and every entry but the last, and rewrites the last entry with `@<hostname>` or the spliced user. Either of them faults, naming its line, exactly when no entry exists yet. |
| ConfigParser.HostTestRunsFirst | main.go:114-126 | The Host test is applied first. A line that passes it opens an entry even if it also holds "hostname " or "user ", so it never amends and never faults. |
| ConfigParser.HostItemShape | main.go:116-124 | A Host line's entry is its lower-cased text with the first "host " cut out, followed by ": ". |
| ConfigParser.HostItemEndsWithColon | main.go:120 | Every Host entry ends in ": ". |
| ConfigParser.DirectiveValueOf | main.go:127-140 | A line that lower-cases to the keyword (which ends in one space) and a value whose ends are no blanks, with any spaces and tabs before the keyword, after the keyword's space, and after the value, yields exactly that value, whether the first Trim cuts spaces only (HostName) or spaces and tabs (User). |
| ConfigParser.AddUserNoAt | main.go:129-143 | On an entry without '@', a User line appends the user to the entry. |
| ConfigParser.AddUserOneAt | main.go:129-143 | On an entry `a@b`, a User line produces `a<user>@b`. |
| ConfigParser.AddUserDropsTail | main.go:129-143 | On an entry `a@b@c` whose first two segments hold no '@', a User line produces `a<user>@b`: everything after the second '@' is lost, whatever it holds, further '@' included. |
| ConfigParser.AmendOrderIrrelevant | main.go:126-143 | On an entry without '@', HostName-then-User and User-then-HostName give the same `<entry><user>@<hostname>`, provided neither value holds '@'. |
| ConfigParser.ParseEnumeratesHosts | main.go:110-148 | After a successful scan, `len(items) == len(hostsIndex)`. `hostsIndex` is strictly increasing, and it lists exactly the indices of the Host lines. |
| ConfigParser.ParseFaultsIffOrphan | main.go:126-129 | The scan faults exactly when some HostName or User line has no Host line before it. |
| ConfigParser.ParseFaultLine | main.go:126-129 | A fault names a HostName or User line, and every line before it is neither a Host, HostName nor User line. |
| ConfigParser.ParseFaultSticks | main.go:113-146 | Once a prefix of the lines faults, the whole file faults with the same fault. |
| ConfigParser.WildcardNeverOpens | main.go:114 | No line whose lower-cased form holds " *" is ever in `hostsIndex`. |
| ConfigParser.EmptyConfig | main.go:109-146 | An empty file splits into one empty line and yields no entries and no indices. |
| ConfigParser.ParseKeepsHostItem | main.go:113-145 | Later HostName and User lines only extend an entry beyond the text its Host line opened it with, when that text holds no '@'. |
| ConfigParser.ScanLines | main.go:109-146 | The imperative loop computes exactly `Parse` of the lines, and stops at the first fault. |
| GoStrings.ToLowerSpec | main.go:114 | `strings.ToLower` on ASCII: each character is lowered in place and no upper-case letter remains. |
| GoStrings.IndexSpec | main.go:114 | `Index` finds a match exactly when one exists, and then it is the first match. |
| GoStrings.ContainsSpec | main.go:114 | `Contains` holds exactly when the pattern occurs at some position. |
| GoStrings.ReplaceFirstSpec | main.go:119-123 | `Replace(s, old, new, 1)` leaves `s` alone when `old` does not occur. Otherwise it rewrites exactly the first occurrence. |
| GoStrings.TrimSpec | main.go:127 | `Trim` removes a prefix and a suffix made only of cutset characters, and the result neither starts nor ends with one. |
| GoStrings.TrimAround | main.go:127-140 | Around a middle part whose ends are not in the cutset, `Trim` keeps that part whole and removes only padding around it. |
| GoStrings.SplitJoin | main.go:129 | Joining separator-free pieces and splitting again gives back the pieces. |
| GoStrings.SplitHead | main.go:91 | The first piece of `Split` is the text before the first separator, or the whole text when there is none. |
| Selector.Update | main.go:69-86 | Its own branches return the quit command exactly on ctrl+c or enter, and it sets quitting exactly on ctrl+c. Any other key goes to the list widget, whose command (`ListCmd`) is not modelled and may itself quit. The choice changes only on enter with an item under the cursor, and then it becomes that item. |
| Selector.Target | main.go:91 | The target is the text before the first ':'. |
| Selector.CopyCommand | main.go:90-92 | There is no command exactly for the empty choice. Otherwise the command is "ssh " followed by the text before the first ':'. |
| Selector.View | main.go:89-96 | The confirmation is shown exactly when a choice exists. It names the copied command, `'ssh <target>' copied to clipboard`. |
| Selector.CommandOfEntry | main.go:91-93 | A display string `<alias>: <rest>` with a ':'-free alias yields "ssh <alias>", whatever the rest. |
| Selector.CommandFromPrefix | main.go:91 | Text appended after the first ':' never changes the command. |
| Selector.EnterOnEmptyList | main.go:75-80 | Enter on an empty list quits without a choice, so nothing is copied and the list view is shown. |
| Selector.EnterThenView | main.go:75-93 | Enter on an item, then View, copies "ssh " plus the item's target and names it in the confirmation. |
| Selector.CtrlCKeepsChoice | main.go:71-73 | Ctrl+C quits and leaves the choice unchanged. |
| Pipeline.HostLineOf | main.go:114-124 | `Host <alias>` in any letter case, when the lower-cased line holds no " *", is a Host line and opens the entry "<alias>: ". |
| Pipeline.HostNameLineOf | main.go:126-127 | `HostName <v>` in any letter case, where one space follows the keyword and any spaces and tabs may come before the keyword, after that space and after the value, is a HostName line whose value is `v`. The one condition is that "host " does not occur in `v` and the blanks after it, since that would make it a Host line. |
| Pipeline.UserLineOf | main.go:128-140 | `User <u>` in any letter case, where one space follows the keyword and any spaces and tabs may come before the keyword, after that space and after the value, is a User line whose value is `u`. The one condition is that neither "host " nor "hostname " occurs in `u` and the blanks after it. |
| Pipeline.BlockComposes | main.go:113-143 | After any successful prefix, a Host, HostName and User block, in either order of the last two, appends the single entry `<host text><user>@<hostname>` and leaves the earlier entries alone, when the Host text and both values hold no '@'. |
| Pipeline.BlockOpensConfig | main.go:113-143 | The same block at the top of a file gives a one-entry list `<host text><user>@<hostname>` whose Host line is at index 0, when the Host text and both values hold no '@'. |
| Pipeline.OrphanOpening | main.go:126-129 | Any file whose first line is a HostName or User line faults on line 0, whatever follows. |
| Pipeline.OrphanAfterOther | main.go:114-129 | A HostName or User line right after a first line that is no directive faults on line 1. |
| Pipeline.EntryCommandFromHostLine | main.go:116-143 | The command copied for a parsed entry depends only on its Host line, not on the HostName and User lines after it. |
| Pipeline.ChoosingAnEntryCopiesItsAlias | main.go:75-93 | Choosing with Enter the entry of a parsed Host line that lower-cases to `host <alias>` copies exactly "ssh <alias>" and says so, when the alias holds no '@' or ':'. |
| Pipeline.ExampleBlock | main.go:126-143 | `Host foo` / `HostName 1.2.3.4` / `User bob` gives exactly "foo: bob@1.2.3.4". |
| Pipeline.ExampleBlockSwapped | main.go:126-143 | `Host foo` / `User bob` / `HostName 1.2.3.4` gives the same "foo: bob@1.2.3.4". |
| Pipeline.ExampleLoneHost | main.go:116-124 | A lone `Host bar` gives exactly the entry "bar: " with index 0. |
| Pipeline.ExampleCommentedHost | main.go:114-124 | A commented-out `# Host old` passes the Host test and opens the entry "# old: ". |
| Pipeline.ExampleTabAfterKeyword | main.go:114-128 | `HostName<tab>1.2.3.4` holds none of the three space-terminated keywords, so the loop passes it over. |
| Pipeline.ExampleCommand | main.go:91-93 | Choosing "foo: bob@1.2.3.4" copies "ssh foo". |
| Pipeline.ExampleWildcardBlock | main.go:114-143 | In `Host foo` / `Host *` / `User bob`, the wildcard line opens nothing, and the User line amends "foo: " into "foo: bob". |
| Pipeline.ExampleWildcardFirst | main.go:114-129 | In `Host *` / `User bob`, the wildcard line opens nothing, so the User line faults on line 1. |
| Pipeline.ExampleOrphan | main.go:126-127 | `HostName 1.2.3.4` before `Host foo` faults on line 0. |

## Left out

- Reading the file and the home directory (main.go:105-108) and the `check` panic helper (main.go:98-102) are not modelled. The model takes the file content, or its lines, as input.
- The clipboard write (main.go:92) is an OS side effect. Only the text it would write is modelled.
- The terminal UI is not modelled:
  - the styles (main.go:17-24);
  - the `item` type and the `itemDelegate` rendering (main.go:26-51);
  - window resizing and the list widget's own navigation and filtering (main.go:65-67, 84-86);
  - program construction and run (main.go:151-166).
- The list widget is reduced as follows:
  - `Update` receives the item under the cursor as an `Option`;
  - the list's command is the single value `ListCmd`;
  - `View` without a choice is the single screen `ListScreen`.
- Printing `hostCount` (main.go:149) is not modelled. Its value, `len(hostsIndex)`, equals the number of entries (`ConfigParser.ParseEnumeratesHosts`).
- ToLower: it lowers ASCII letters only. Go's Unicode case folding of other letters is not modelled.
- Go strings are byte sequences. The model uses sequences of characters, which agree with Go on ASCII text.
- Step: a HostName or User line before any Host line is a runtime panic in Go. Here it is the error value `NoEntryToAmend`, which ends the scan.
- Pipeline.EntryCommandFromHostLine: it holds only when the entry's Host text holds no '@'. With an '@' in it, a later User line splits at that '@' and may rewrite the alias.
- Pipeline.ChoosingAnEntryCopiesItsAlias: it requires an alias without '@' or ':'. With an '@', a later User line may rewrite the alias, as for EntryCommandFromHostLine. With a ':', the copied command stops at that ':'.

=== FILE: config_parser.dfy ===
/**
 * The scanner that turns the lines of `~/.ssh/config` into the display strings
 * of the selection list (the loop in `main`). It is a forward fold over the
 * lines: a Host line opens an entry, a HostName or User line rewrites the most
 * recently opened entry by string surgery on its display string.
 */
module ConfigParser {
  import opened Wrappers
  import opened GoStrings

  /** Which branch of the scanning loop a line takes. */
  datatype LineKind = HostLine | HostNameLine | UserLine | OtherLine

  /** The loop's three substring tests on the lower-cased line, in the order the loop applies them. */
  function Classify(line: string): LineKind
  {
    var l := ToLower(line);
    if Contains(l, "host ") && !Contains(l, " *") then HostLine
    else if Contains(l, "hostname ") then HostNameLine
    else if Contains(l, "user ") then UserLine
    else OtherLine
  }

  /** A line that rewrites the last entry instead of opening one. */
  predicate Amends(line: string)
  {
    Classify(line) == HostNameLine || Classify(line) == UserLine
  }

  /** The loop state: the indices of the Host lines seen so far (`hostsIndex`) and the display strings built (`items`). */
  datatype Scan = Scan(hostsIndex: seq<nat>, items: seq<string>)
  {
    /** The state after a Host line at index `i` appends the entry `item`. */
    function Open(i: nat, item: string): Scan
    {
      Scan(hostsIndex + [i], items + [item])
    }
  }

  /** The runtime panic of `items[len(items)-1]` on an empty slice, with the index of the line that caused it. */
  datatype Fault = NoEntryToAmend(line: nat)

  /* ---------- the string surgery of the three branches ---------- */

  /** The display string a Host line opens: the lower-cased line with ": " appended and its first "host " removed. */
  function HostItem(line: string): string
  {
    ReplaceFirst(ToLower(line) + ": ", "host ", "")
  }

  /** The entry of a Host line is its lower-cased text with the first "host " cut out and ": " appended. */
  lemma HostItemShape(line: string, i: int)
    requires FirstAt(ToLower(line), "host ", i)
    ensures HostItem(line) == ToLower(line)[..i] + ToLower(line)[i + 5..] + ": "
  {
    ReplaceFirstAppend(ToLower(line), ": ", "host ", "", i);
  }

  /**
   * The value of a directive line: the lower-cased line trimmed of `preCut`,
   * its first `keyword` removed, then trimmed of spaces and tabs.
   */
  function DirectiveValue(line: string, preCut: string, keyword: string): string
  {
    Trim(ReplaceFirst(Trim(ToLower(line), preCut), keyword, ""), " \t")
  }

  /** The HostName value: the line is first trimmed of spaces only. */
  function HostNameValue(line: string): string
  {
    DirectiveValue(line, " ", "hostname ")
  }

  /** The User value: the line is first trimmed of spaces and tabs. */
  function UserValue(line: string): string
  {
    DirectiveValue(line, " \t", "user ")
  }

  /** Only spaces and tabs. */
  predicate Blanks(s: string)
  {
    forall k :: 0 <= k < |s| ==> s[k] in " \t"
  }

  /**
   * A directive line that lower-cases to `keyword` and a value, with any run of
   * spaces and tabs before the keyword, between it and the value, and after
   * the value, yields exactly that value, whichever of the two cutsets the
   * first Trim uses.
   */
  lemma DirectiveValueOf(line: string, preCut: string, keyword: string, pre: string, gap: string, v: string, post: string)
    requires ToLower(line) == pre + keyword + gap + v + post
    requires Blanks(pre) && Blanks(gap) && Blanks(post)
    requires forall c :: c in preCut ==> c in " \t"
    requires |keyword| > 0 && keyword[0] !in " \t"
    requires |v| > 0 && v[0] !in " \t" && v[|v| - 1] !in " \t"
    ensures DirectiveValue(line, preCut, keyword) == v
  {
    var l, core := ToLower(line), keyword + gap + v;
    assert core[0] !in preCut && core[|core| - 1] !in preCut by {
      assert core[0] == keyword[0] && core[|core| - 1] == v[|v| - 1];
    }
    var d, e := TrimAround(pre, core, post, preCut);
    var lead, tail := pre[d..], post[..e];
    calc {
      DirectiveValue(line, preCut, keyword);
      Trim(ReplaceFirst(Trim(l, preCut), keyword, ""), " \t");
      { Regroup(pre, keyword, gap, v, post); }
      Trim(ReplaceFirst(lead + core + tail, keyword, ""), " \t");
      { Regroup(lead, keyword, gap, v, tail); }
      Trim(ReplaceFirst(lead + keyword + (gap + v + tail), keyword, ""), " \t");
      { ReplaceFirstAfter(lead, keyword, gap + v + tail); }
      Trim(lead + (gap + v + tail), " \t");
      { Regroup(lead, "", gap, v, tail); }
      Trim((lead + gap) + v + tail, " \t");
      { BlanksCut(pre, d, gap, post, e);
        TrimPadded(lead + gap, v, tail, " \t"); }
      v;
    }
  }

  /** What Trim keeps of blank padding, and a blank gap after it, is still blank. */
  lemma BlanksCut(pre: string, d: nat, gap: string, post: string, e: nat)
    requires Blanks(pre) && Blanks(gap) && Blanks(post) && d <= |pre| && e <= |post|
    ensures Blanks(pre[d..] + gap) && Blanks(post[..e])
  {
    var lead := pre[d..] + gap;
    forall k | 0 <= k < |lead|
      ensures lead[k] in " \t"
    {
      if k < |pre| - d {
        assert lead[k] == pre[d + k];
      } else {
        assert lead[k] == gap[k - (|pre| - d)];
      }
    }
    assert forall k :: 0 <= k < e ==> post[..e][k] == post[k];
  }

  /** A character that is no blank and not in the keyword past its first letter occurs in blank-padded `keyword` at most where the keyword starts. */
  lemma PaddedKeywordLacks(pre: string, keyword: string, gap: string, c: char)
    requires Blanks(pre) && Blanks(gap) && |keyword| > 0
    requires c !in " \t" && c !in keyword[1..]
    ensures forall k :: 0 <= k < |pre + keyword + gap| && k != |pre| ==> (pre + keyword + gap)[k] != c
  {
    var a := pre + keyword + gap;
    forall k | 0 <= k < |a| && k != |pre|
      ensures a[k] != c
    {
      if k < |pre| {
        assert a[k] == pre[k];
      } else if k < |pre| + |keyword| {
        assert a[k] == keyword[1..][k - |pre| - 1];
      } else {
        assert a[k] == gap[k - |pre| - |keyword|];
      }
    }
  }

  /** The groupings of a five-part concatenation that DirectiveValueOf moves between. */
  lemma Regroup(a: string, b: string, c: string, d: string, e: string)
    ensures a + b + c + d + e == a + (b + c + d) + e
    ensures a + (b + c + d) + e == a + b + (c + d + e)
    ensures a + (c + d + e) == (a + c) + d + e
  {
  }

  /** A HostName line appends "@" and its value to the entry. */
  function AddHostName(item: string, line: string): string
  {
    item + "@" + HostNameValue(line)
  }

  /**
   * A User line splits the entry on '@' and rebuilds it as the first segment,
   * the user, and "@" plus the second segment when there is one.
   */
  function AddUser(item: string, line: string): string
  {
    var parts := Split(item, '@');
    parts[0] + UserValue(line) + (if |parts| > 1 then "@" + parts[1] else "")
  }

  /** An entry without '@' gets the user appended. */
  lemma AddUserNoAt(item: string, line: string)
    requires '@' !in item
    ensures AddUser(item, line) == item + UserValue(line)
  {
    SplitNoSep(item, '@');
  }

  /** An entry `a@b` becomes `a<user>@b`: the user is spliced in front of the first '@'. */
  lemma AddUserOneAt(a: string, b: string, line: string)
    requires '@' !in a && '@' !in b
    ensures AddUser(a + "@" + b, line) == a + UserValue(line) + "@" + b
  {
    SplitJoin([a, b], '@');
    assert Join([a, b], '@') == a + "@" + b;
  }

  /** Everything after the second '@' is lost: `a@b@c` becomes `a<user>@b`, whatever `c` holds, further '@' included. */
  lemma AddUserDropsTail(a: string, b: string, c: string, line: string)
    requires '@' !in a && '@' !in b
    ensures AddUser(a + "@" + b + "@" + c, line) == a + UserValue(line) + "@" + b
  {
    var item := a + "@" + b + "@" + c;
    var parts := Split(item, '@');
    assert |parts| > 1 && parts[0] == a && parts[1] == b by {
      SplitAfterSep(b, '@', c);
      assert item == a + ['@'] + (b + ['@'] + c);
      SplitAfterSep(a, '@', b + ['@'] + c);
    }
    AddUserOfParts(item, line, parts);
  }


  /** AddUser in terms of the pieces of the entry, when it holds at least one '@'. */
  lemma AddUserOfParts(item: string, line: string, parts: seq<string>)
    requires Split(item, '@') == parts && |parts| > 1
    ensures AddUser(item, line) == parts[0] + UserValue(line) + "@" + parts[1]
  {
  }

  /**
   * HostName and User commute on an entry without '@' when neither value holds
   * '@': both orders give `<entry><user>@<hostname>`.
   */
  lemma AmendOrderIrrelevant(item: string, hostNameLine: string, userLine: string)
    requires '@' !in item
    requires '@' !in HostNameValue(hostNameLine) && '@' !in UserValue(userLine)
    ensures AddUser(AddHostName(item, hostNameLine), userLine)
         == item + UserValue(userLine) + "@" + HostNameValue(hostNameLine)
    ensures AddHostName(AddUser(item, userLine), hostNameLine)
         == item + UserValue(userLine) + "@" + HostNameValue(hostNameLine)
  {
    AddUserOneAt(item, HostNameValue(hostNameLine), userLine);
    AddUserNoAt(item, userLine);
  }

  /* ---------- one iteration of the loop, and the whole loop ---------- */

  /** The loop body for line number `i`. */
  function Step(st: Scan, i: nat, line: string): (r: Result<Scan, Fault>)
    ensures r.Failure? <==> Amends(line) && |st.items| == 0
    ensures r.Failure? ==> r.error == NoEntryToAmend(i)
    ensures Classify(line) == HostLine ==>
      r == Success(st.Open(i, HostItem(line)))
    ensures Classify(line) == OtherLine ==> r == Success(st)
    ensures r.Success? && Amends(line) ==>
      && r.value.hostsIndex == st.hostsIndex
      && |r.value.items| == |st.items|
      && r.value.items[..|st.items| - 1] == st.items[..|st.items| - 1]
    ensures r.Success? && Classify(line) == HostNameLine ==>
      r.value.items[|st.items| - 1] == AddHostName(st.items[|st.items| - 1], line)
    ensures r.Success? && Classify(line) == UserLine ==>
      r.value.items[|st.items| - 1] == AddUser(st.items[|st.items| - 1], line)
  {
    var n := |st.items|;
    match Classify(line)
    case HostLine => Success(st.Open(i, HostItem(line)))
    case HostNameLine =>
      if n == 0 then Failure(NoEntryToAmend(i))
      else Success(Scan(st.hostsIndex, st.items[n - 1 := AddHostName(st.items[n - 1], line)]))
    case UserLine =>
      if n == 0 then Failure(NoEntryToAmend(i))
      else Success(Scan(st.hostsIndex, st.items[n - 1 := AddUser(st.items[n - 1], line)]))
    case OtherLine => Success(st)
  }

  /**
   * The Host test runs first: a line that passes it opens an entry even when it
   * also holds "hostname " or "user ", so it can never fault or amend.
   */
  lemma HostTestRunsFirst(st: Scan, i: nat, line: string)
    requires Contains(ToLower(line), "host ") && !Contains(ToLower(line), " *")
    ensures !Amends(line)
    ensures Step(st, i, line) == Success(st.Open(i, HostItem(line)))
  {
  }

  /** The state before the first line. */
  const Start := Scan([], [])

  /** The whole loop: a left fold of Step over the lines, stopping at the first fault. */
  function Parse(lines: seq<string>): Result<Scan, Fault>
    decreases |lines|
  {
    if |lines| == 0 then Success(Start)
    else
      match Parse(lines[..|lines| - 1])
      case Failure(e) => Failure(e)
      case Success(st) => Step(st, |lines| - 1, lines[|lines| - 1])
  }

  /** The file content split on "\n", then scanned. */
  function ParseConfig(text: string): Result<Scan, Fault>
  {
    Parse(Split(text, '\n'))
  }

  /** Scanning one more line is one more Step on the state so far. */
  lemma ParseSnoc(lines: seq<string>, line: string)
    ensures Parse(lines + [line]) == match Parse(lines)
      case Failure(e) => Failure(e)
      case Success(st) => Step(st, |lines|, line)
  {
    assert (lines + [line])[..|lines|] == lines;
  }

  /* ---------- reference definitions ---------- */

  /** `idx` lists, strictly increasing, exactly the indices of the Host lines in `lines`. */
  ghost predicate EnumeratesHostLines(lines: seq<string>, idx: seq<nat>)
  {
    && (forall k :: 0 <= k < |idx| ==> idx[k] < |lines| && Classify(lines[idx[k]]) == HostLine)
    && (forall k, m :: 0 <= k < m < |idx| ==> idx[k] < idx[m])
    && (forall i :: 0 <= i < |lines| && Classify(lines[i]) == HostLine ==> i in idx)
  }

  /** No line before index `i` is a Host line. */
  ghost predicate NoHostBefore(lines: seq<string>, i: int)
  {
    forall j :: 0 <= j < i && j < |lines| ==> Classify(lines[j]) != HostLine
  }

  /** Some HostName or User line comes before every Host line. */
  ghost predicate HasOrphan(lines: seq<string>)
  {
    exists i :: 0 <= i < |lines| && Amends(lines[i]) && NoHostBefore(lines, i)
  }

  /* ---------- properties of the loop ---------- */

  /** The last line extends the enumeration of Host lines by its own index exactly when it is a Host line. */
  lemma EnumeratesSnoc(lines: seq<string>, idx: seq<nat>)
    requires |lines| > 0 && EnumeratesHostLines(lines[..|lines| - 1], idx)
    ensures var n := |lines| - 1;
      EnumeratesHostLines(lines, idx + (if Classify(lines[n]) == HostLine then [n] else []))
  {
    var n := |lines| - 1;
    var init := lines[..n];
    var idx' := idx + (if Classify(lines[n]) == HostLine then [n] else []);
    assert forall j :: 0 <= j < n ==> lines[j] == init[j];
    forall k | 0 <= k < |idx'|
      ensures idx'[k] < |lines| && Classify(lines[idx'[k]]) == HostLine
    {
      if k < |idx| {
        assert idx'[k] == idx[k];
      }
    }
    forall i | 0 <= i < |lines| && Classify(lines[i]) == HostLine
      ensures i in idx'
    {
      if i < n {
        assert i in idx;
      }
    }
  }

  /** A successful scan keeps one index per entry, and those indices are exactly the Host lines, in file order. */
  lemma {:induction false} ParseEnumeratesHosts(lines: seq<string>)
    requires Parse(lines).Success?
    ensures |Parse(lines).value.items| == |Parse(lines).value.hostsIndex|
    ensures EnumeratesHostLines(lines, Parse(lines).value.hostsIndex)
  {
    if |lines| == 0 {
      return;
    }
    var n := |lines| - 1;
    var init := lines[..n];
    assert Parse(init).Success?;
    ParseEnumeratesHosts(init);
    LastEnumeratesHosts(lines);
  }

  /** The inductive step of ParseEnumeratesHosts: scanning the last line keeps the enumeration exact. */
  lemma LastEnumeratesHosts(lines: seq<string>)
    requires |lines| > 0 && Parse(lines).Success?
    requires var st := Parse(lines[..|lines| - 1]);
      && st.Success? && |st.value.items| == |st.value.hostsIndex|
      && EnumeratesHostLines(lines[..|lines| - 1], st.value.hostsIndex)
    ensures |Parse(lines).value.items| == |Parse(lines).value.hostsIndex|
    ensures EnumeratesHostLines(lines, Parse(lines).value.hostsIndex)
  {
    var n := |lines| - 1;
    var st := Parse(lines[..n]).value;
    var st' := Parse(lines).value;
    assert st'.hostsIndex == st.hostsIndex + (if Classify(lines[n]) == HostLine then [n] else [])
        && |st'.items| == |st'.hostsIndex| by {
    }
    EnumeratesSnoc(lines, st.hostsIndex);
  }

  /** Appending a line creates an orphan exactly when it is a directive and no Host line precedes it. */
  lemma OrphanSnoc(init: seq<string>, line: string)
    ensures HasOrphan(init + [line]) <==> HasOrphan(init) || (Amends(line) && NoHostBefore(init, |init|))
  {
    var lines := init + [line];
    assert forall j :: 0 <= j < |init| ==> lines[j] == init[j];
    if HasOrphan(init) {
      var i :| 0 <= i < |init| && Amends(init[i]) && NoHostBefore(init, i);
      assert Amends(lines[i]) && NoHostBefore(lines, i);
    }
    if Amends(line) && NoHostBefore(init, |init|) {
      assert Amends(lines[|init|]) && NoHostBefore(lines, |init|);
    }
    if HasOrphan(lines) {
      var i :| 0 <= i < |lines| && Amends(lines[i]) && NoHostBefore(lines, i);
      if i < |init| {
        assert Amends(init[i]) && NoHostBefore(init, i);
      }
    }
  }

  /** After a successful scan there are no entries exactly when no line is a Host line. */
  lemma NoEntriesIffNoHost(lines: seq<string>)
    requires Parse(lines).Success?
    ensures |Parse(lines).value.items| == 0 <==> NoHostBefore(lines, |lines|)
  {
    ParseEnumeratesHosts(lines);
    var idx := Parse(lines).value.hostsIndex;
    if |idx| > 0 {
      assert Classify(lines[idx[0]]) == HostLine;
    }
    if !NoHostBefore(lines, |lines|) {
      var j :| 0 <= j < |lines| && Classify(lines[j]) == HostLine;
      assert j in idx;
    }
  }

  /** The scan faults exactly when a HostName or User line precedes every Host line. */
  lemma {:induction false} ParseFaultsIffOrphan(lines: seq<string>)
    ensures Parse(lines).Failure? <==> HasOrphan(lines)
  {
    if |lines| == 0 {
      return;
    }
    var n := |lines| - 1;
    var init := lines[..n];
    assert lines == init + [lines[n]];
    ParseFaultsIffOrphan(init);
    OrphanSnoc(init, lines[n]);
    if Parse(init).Success? {
      NoEntriesIffNoHost(init);
    }
  }

  /** A fault names the first directive line of the file, which is a HostName or User line. */
  lemma {:induction false} ParseFaultLine(lines: seq<string>)
    requires Parse(lines).Failure?
    ensures Parse(lines).error.line < |lines|
    ensures Amends(lines[Parse(lines).error.line])
    ensures forall j :: 0 <= j < Parse(lines).error.line ==> Classify(lines[j]) == OtherLine
  {
    var n := |lines| - 1;
    var init := lines[..n];
    assert forall j :: 0 <= j < n ==> lines[j] == init[j];
    if Parse(init).Failure? {
      ParseFaultLine(init);
    } else {
      var st := Parse(init).value;
      ParseEnumeratesHosts(init);
      ParseFaultsIffOrphan(init);
      forall j | 0 <= j < n ensures Classify(lines[j]) == OtherLine {
        assert NoHostBefore(init, j);
      }
    }
  }

  /** A line whose lower-cased form holds " *" (such as `Host *`) never becomes an entry. */
  lemma WildcardNeverOpens(lines: seq<string>)
    requires Parse(lines).Success?
    ensures forall k :: 0 <= k < |Parse(lines).value.hostsIndex| ==>
      Parse(lines).value.hostsIndex[k] < |lines| &&
      !Contains(ToLower(lines[Parse(lines).value.hostsIndex[k]]), " *")
  {
    ParseEnumeratesHosts(lines);
  }

  /** An empty file splits into one empty line and yields no entries. */
  lemma EmptyConfig()
    ensures ParseConfig("") == Success(Scan([], []))
  {
    assert Split("", '\n') == [""];
    assert ToLower("") == "";
    assert !Contains("", "host ") && !Contains("", "hostname ") && !Contains("", "user ");
  }

  /** A fault stops the scan: once a prefix of the lines faults, the whole file faults with the same fault. */
  lemma {:induction false} ParseFaultSticks(lines: seq<string>, n: nat)
    requires n <= |lines| && Parse(lines[..n]).Failure?
    ensures Parse(lines) == Parse(lines[..n])
    decreases |lines| - n
  {
    if n < |lines| {
      var pre := lines[..n + 1];
      assert pre[..n] == lines[..n];
      ParseFaultSticks(lines, n + 1);
    } else {
      assert lines[..n] == lines;
    }
  }

  /** The scanning loop as written: one pass over the lines, aborting at the first fault. */
  method ScanLines(lines: seq<string>) returns (r: Result<Scan, Fault>)
    ensures r == Parse(lines)
  {
    var st := Start;
    var i := 0;
    while i < |lines|
      invariant 0 <= i <= |lines|
      invariant Parse(lines[..i]) == Success(st)
    {
      var next := Step(st, i, lines[i]);
      assert lines[..i + 1][..i] == lines[..i];
      if next.Failure? {
        ParseFaultSticks(lines, i + 1);
        return next;
      }
      st := next.value;
      i := i + 1;
    }
    assert lines[..i] == lines;
    return Success(st);
  }

  /** Every Host line's entry ends in ": ", the separator the command formatter splits on. */
  lemma HostItemEndsWithColon(line: string)
    requires Classify(line) == HostLine
    ensures |HostItem(line)| >= 2 && HostItem(line)[|HostItem(line)| - 2..] == ": "
  {
    var l := ToLower(line);
    ContainsSpec(l, "host ");
    IndexSpec(l, "host ");
    HostItemShape(line, Index(l, "host ").value);
  }

  /** Entry `k` of `st` begins with the text its Host line opened it with, whenever that text holds no '@'. */
  ghost predicate KeepsHostItems(lines: seq<string>, st: Scan)
  {
    && |st.items| == |st.hostsIndex|
    && forall k :: 0 <= k < |st.items| ==>
      && st.hostsIndex[k] < |lines|
      && ('@' !in HostItem(lines[st.hostsIndex[k]]) ==> HostItem(lines[st.hostsIndex[k]]) <= st.items[k])
  }

  /** A Host line as the last line preserves KeepsHostItems: the new entry is exactly its Host text. */
  lemma OpenKeepsHostItems(lines: seq<string>, st: Scan)
    requires |lines| > 0 && KeepsHostItems(lines[..|lines| - 1], st)
    ensures var n := |lines| - 1; KeepsHostItems(lines, st.Open(n, HostItem(lines[n])))
  {
    var n := |lines| - 1;
    var init := lines[..n];
    var st' := st.Open(n, HostItem(lines[n]));
    forall k | 0 <= k < |st'.items|
      ensures st'.hostsIndex[k] < |lines|
      ensures '@' !in HostItem(lines[st'.hostsIndex[k]]) ==> HostItem(lines[st'.hostsIndex[k]]) <= st'.items[k]
    {
      if k < |st.items| {
        assert st'.hostsIndex[k] == st.hostsIndex[k] && st'.items[k] == st.items[k];
        assert lines[st.hostsIndex[k]] == init[st.hostsIndex[k]];
      }
    }
  }

  /** Rewriting the last entry into one that still begins with its Host text preserves KeepsHostItems. */
  lemma AmendKeepsHostItems(lines: seq<string>, st: Scan, last: string)
    requires |lines| > 0 && KeepsHostItems(lines[..|lines| - 1], st) && |st.items| > 0
    requires var h := HostItem(lines[..|lines| - 1][st.hostsIndex[|st.items| - 1]]); '@' !in h ==> h <= last
    ensures KeepsHostItems(lines, Scan(st.hostsIndex, st.items[|st.items| - 1 := last]))
  {
    var init := lines[..|lines| - 1];
    var st' := Scan(st.hostsIndex, st.items[|st.items| - 1 := last]);
    forall k | 0 <= k < |st'.items|
      ensures st'.hostsIndex[k] < |lines|
      ensures '@' !in HostItem(lines[st'.hostsIndex[k]]) ==> HostItem(lines[st'.hostsIndex[k]]) <= st'.items[k]
    {
      assert lines[st.hostsIndex[k]] == init[st.hostsIndex[k]];
    }
  }

  /** Scanning the last line with Step preserves KeepsHostItems. */
  lemma StepKeepsHostItems(lines: seq<string>, st: Scan)
    requires |lines| > 0 && KeepsHostItems(lines[..|lines| - 1], st)
    requires Step(st, |lines| - 1, lines[|lines| - 1]).Success?
    ensures KeepsHostItems(lines, Step(st, |lines| - 1, lines[|lines| - 1]).value)
  {
    var n := |lines| - 1;
    var line := lines[n];
    var m := |st.items|;
    match Classify(line)
    case HostLine =>
      OpenKeepsHostItems(lines, st);
    case OtherLine =>
      assert forall j :: 0 <= j < n ==> lines[j] == lines[..n][j];
    case HostNameLine =>
      AmendKeepsHostItems(lines, st, AddHostName(st.items[m - 1], line));
    case UserLine =>
      var h := HostItem(lines[..n][st.hostsIndex[m - 1]]);
      if '@' !in h {
        PrefixOfSplitHead(h, st.items[m - 1], '@');
      }
      AmendKeepsHostItems(lines, st, AddUser(st.items[m - 1], line));
  }

  /**
   * Later HostName and User lines only ever extend an entry beyond the text its
   * Host line opened it with, as long as that text holds no '@'.
   */
  lemma {:induction false} ParseKeepsHostItem(lines: seq<string>)
    requires Parse(lines).Success?
    ensures KeepsHostItems(lines, Parse(lines).value)
  {
    if |lines| == 0 {
      return;
    }
    var n := |lines| - 1;
    assert Parse(lines[..n]).Success? by {
    }
    ParseKeepsHostItem(lines[..n]);
    LastKeepsHostItems(lines);
  }

  /** The inductive step of ParseKeepsHostItem: scanning the last line preserves KeepsHostItems. */
  lemma LastKeepsHostItems(lines: seq<string>)
    requires |lines| > 0 && Parse(lines).Success?
    requires var st := Parse(lines[..|lines| - 1]); st.Success? && KeepsHostItems(lines[..|lines| - 1], st.value)
    ensures KeepsHostItems(lines, Parse(lines).value)
  {
    StepKeepsHostItems(lines, Parse(lines[..|lines| - 1]).value);
  }
}

=== FILE: go_strings.dfy ===
/**
 * The handful of Go `strings` functions the configuration scanner is built
 * from, each defined on `seq<char>` and specified independently of how it is
 * computed. Case folding is ASCII-only.
 */
module GoStrings {
  import opened Wrappers

  /* ---------- strings.ToLower (ASCII) ---------- */

  predicate IsUpper(c: char) {
    'A' <= c <= 'Z'
  }

  /** ASCII lower-casing of one character; every other character is unchanged. */
  function LowerChar(c: char): (r: char)
    ensures !IsUpper(r)
    ensures IsUpper(c) ==> r as int == c as int + 32
    ensures !IsUpper(c) ==> r == c
  {
    if IsUpper(c) then (c as int + 32) as char else c
  }

  /** strings.ToLower restricted to ASCII letters. */
  function ToLower(s: string): (r: string)
    ensures |r| == |s|
  {
    if |s| == 0 then "" else [LowerChar(s[0])] + ToLower(s[1..])
  }

  /** ToLower lower-cases each character in place, so its result holds no upper-case ASCII letter. */
  lemma {:induction false} ToLowerSpec(s: string)
    ensures forall i :: 0 <= i < |s| ==> ToLower(s)[i] == LowerChar(s[i])
    ensures forall i :: 0 <= i < |s| ==> !IsUpper(ToLower(s)[i])
  {
    if |s| > 0 {
      ToLowerSpec(s[1..]);
      assert forall i :: 1 <= i < |s| ==> ToLower(s)[i] == ToLower(s[1..])[i - 1];
    }
  }

  /* ---------- strings.Index / strings.Contains ---------- */

  /** `pat` appears in `s` starting at position `i`. */
  predicate OccursAt(s: string, pat: string, i: int) {
    0 <= i && i + |pat| <= |s| && s[i..i + |pat|] == pat
  }

  /** `i` is the leftmost position at which `pat` appears in `s`. */
  predicate FirstAt(s: string, pat: string, i: int) {
    OccursAt(s, pat, i) && forall j :: 0 <= j < i ==> !OccursAt(s, pat, j)
  }

  /** The leftmost occurrence of `pat` in `s` at or after position `k`. */
  function IndexFrom(s: string, pat: string, k: nat): (r: Option<nat>)
    ensures r.Some? ==> r.value + |pat| <= |s|
    decreases |s| - k
  {
    if k + |pat| > |s| then None
    else if s[k..k + |pat|] == pat then Some(k)
    else IndexFrom(s, pat, k + 1)
  }

  /** IndexFrom finds the leftmost occurrence at or after `k`, and reports None only when there is none. */
  lemma {:induction false} IndexFromSpec(s: string, pat: string, k: nat)
    ensures IndexFrom(s, pat, k).Some? ==>
      k <= IndexFrom(s, pat, k).value && OccursAt(s, pat, IndexFrom(s, pat, k).value)
    ensures IndexFrom(s, pat, k).Some? ==>
      forall j :: k <= j < IndexFrom(s, pat, k).value ==> !OccursAt(s, pat, j)
    ensures IndexFrom(s, pat, k).None? ==> forall j :: k <= j ==> !OccursAt(s, pat, j)
    decreases |s| - k
  {
    if k + |pat| <= |s| && s[k..k + |pat|] != pat {
      IndexFromSpec(s, pat, k + 1);
    }
  }

  /** strings.Index, with None in place of -1. */
  function Index(s: string, pat: string): (r: Option<nat>)
    ensures r.Some? ==> r.value + |pat| <= |s|
  {
    IndexFrom(s, pat, 0)
  }

  /** Index reports the leftmost occurrence, and None exactly when there is no occurrence. */
  lemma IndexSpec(s: string, pat: string)
    ensures Index(s, pat).Some? <==> exists i :: OccursAt(s, pat, i)
    ensures Index(s, pat).Some? ==> FirstAt(s, pat, Index(s, pat).value)
  {
    IndexFromSpec(s, pat, 0);
  }

  /** strings.Contains. */
  predicate Contains(s: string, pat: string)
  {
    Index(s, pat).Some?
  }

  /** Contains agrees with the existence of an occurrence. */
  lemma ContainsSpec(s: string, pat: string)
    ensures Contains(s, pat) <==> exists i :: OccursAt(s, pat, i)
  {
    IndexSpec(s, pat);
  }

  /** A pattern holding a character that `s` lacks does not occur in `s`. */
  lemma NotContainsByChar(s: string, pat: string, c: char)
    requires c in pat && c !in s
    ensures !Contains(s, pat)
  {
    ContainsSpec(s, pat);
    var k :| 0 <= k < |pat| && pat[k] == c;
    forall i
      ensures !OccursAt(s, pat, i)
    {
      if 0 <= i && i + |pat| <= |s| {
        assert s[i..i + |pat|][k] == s[i + k];
      }
    }
  }

  /** `pat` does not occur in `a + b` when it does not occur in `b` and no occurrence starts inside `a`. */
  lemma NotContainsAfter(a: string, b: string, pat: string)
    requires !Contains(b, pat)
    requires forall i :: 0 <= i < |a| ==> !OccursAt(a + b, pat, i)
    ensures !Contains(a + b, pat)
  {
    var s := a + b;
    ContainsSpec(b, pat);
    ContainsSpec(s, pat);
    forall i | |a| <= i && i + |pat| <= |s|
      ensures !OccursAt(s, pat, i)
    {
      assert s[i..i + |pat|] == b[i - |a|..i - |a| + |pat|];
      assert !OccursAt(b, pat, i - |a|);
    }
  }

  /** No occurrence of `pat` starts at a position of `a` holding a character other than `pat[0]`. */
  lemma NoOccurrenceAt(a: string, b: string, pat: string, i: int)
    requires |pat| > 0 && 0 <= i < |a| && a[i] != pat[0]
    ensures !OccursAt(a + b, pat, i)
  {
    if i + |pat| <= |a + b| {
      assert (a + b)[i..i + |pat|][0] == a[i];
    }
  }

  /** `pat` does not occur in `a + b` when it does not occur in `b` and `a` lacks the first character of `pat`. */
  lemma NotContainsAfterForeign(a: string, b: string, pat: string)
    requires |pat| > 0 && !Contains(b, pat)
    requires forall k :: 0 <= k < |a| ==> a[k] != pat[0]
    ensures !Contains(a + b, pat)
  {
    forall i | 0 <= i < |a|
      ensures !OccursAt(a + b, pat, i)
    {
      NoOccurrenceAt(a, b, pat, i);
    }
    NotContainsAfter(a, b, pat);
  }

  /** A string that begins with `pat` has its first occurrence of `pat` at 0. */
  lemma FirstAtStart(pat: string, rest: string)
    ensures FirstAt(pat + rest, pat, 0)
  {
    assert (pat + rest)[0..|pat|] == pat;
  }

  /** When no character of `pre` is the first character of `pat`, the first occurrence of `pat` in `pre + pat + rest` is right after `pre`. */
  lemma FirstAtAfter(pre: string, pat: string, rest: string)
    requires |pat| > 0 && forall k :: 0 <= k < |pre| ==> pre[k] != pat[0]
    ensures FirstAt(pre + pat + rest, pat, |pre|)
  {
    var s := pre + pat + rest;
    assert s[|pre|..|pre| + |pat|] == pat;
    forall j | 0 <= j < |pre|
      ensures !OccursAt(s, pat, j)
    {
      assert s == pre + (pat + rest);
      NoOccurrenceAt(pre, pat + rest, pat, j);
    }
  }

  /* ---------- strings.Replace(s, old, new, 1) ---------- */

  /** Replaces the leftmost occurrence of `pat` by `rep`; `s` is returned unchanged when `pat` does not occur. */
  function ReplaceFirst(s: string, pat: string, rep: string): string
  {
    match Index(s, pat)
    case None => s
    case Some(i) => s[..i] + rep + s[i + |pat|..]
  }

  /** ReplaceFirst leaves `s` alone when `pat` is absent, and otherwise rewrites exactly the leftmost occurrence. */
  lemma ReplaceFirstSpec(s: string, pat: string, rep: string)
    ensures !Contains(s, pat) ==> ReplaceFirst(s, pat, rep) == s
    ensures forall i :: FirstAt(s, pat, i) ==> ReplaceFirst(s, pat, rep) == s[..i] + rep + s[i + |pat|..]
    ensures Contains(s, pat) ==> |ReplaceFirst(s, pat, rep)| == |s| - |pat| + |rep|
  {
    IndexSpec(s, pat);
    ContainsSpec(s, pat);
    forall i | FirstAt(s, pat, i)
      ensures i == Index(s, pat).value
    {
      var j := Index(s, pat).value;
      assert !(i < j) && !(j < i);
    }
  }

  /** Text appended after the leftmost occurrence does not move it, so ReplaceFirst rewrites the same place. */
  lemma ReplaceFirstAppend(s: string, t: string, pat: string, rep: string, i: int)
    requires FirstAt(s, pat, i)
    ensures ReplaceFirst(s + t, pat, rep) == s[..i] + rep + s[i + |pat|..] + t
  {
    var st := s + t;
    assert st[i..i + |pat|] == s[i..i + |pat|];
    forall j | 0 <= j < i
      ensures !OccursAt(st, pat, j)
    {
      assert !OccursAt(s, pat, j);
      assert st[j..j + |pat|] == s[j..j + |pat|];
    }
    assert FirstAt(st, pat, i);
    ReplaceFirstSpec(st, pat, rep);
    assert st[..i] == s[..i];
    assert st[i + |pat|..] == s[i + |pat|..] + t;
  }

  /** Removing the first `pat` from `pre + pat + rest` leaves `pre + rest` when `pre` lacks the first character of `pat`. */
  lemma ReplaceFirstAfter(pre: string, pat: string, rest: string)
    requires |pat| > 0 && forall k :: 0 <= k < |pre| ==> pre[k] != pat[0]
    ensures ReplaceFirst(pre + pat + rest, pat, "") == pre + rest
  {
    var s := pre + pat + rest;
    assert s[..|pre|] == pre && s[|pre| + |pat|..] == rest;
    assert ReplaceFirst(s, pat, "") == s[..|pre|] + "" + s[|pre| + |pat|..] by {
      FirstAtAfter(pre, pat, rest);
      ReplaceFirstSpec(s, pat, "");
    }
    assert pre + "" + rest == pre + rest;
  }

  /* ---------- strings.Trim(s, cutset) ---------- */

  /** `r` is `s` with its maximal leading and trailing runs of `cutset` characters removed, the kept part starting at `a`. */
  predicate TrimmedAt(s: string, cutset: string, a: int, r: string) {
    && 0 <= a && a + |r| <= |s|
    && s[a..a + |r|] == r
    && (forall k :: 0 <= k < a ==> s[k] in cutset)
    && (forall k :: a + |r| <= k < |s| ==> s[k] in cutset)
    && (|r| > 0 ==> r[0] !in cutset && r[|r| - 1] !in cutset)
  }

  /** strings.TrimLeft: drops the leading `cutset` characters. */
  function TrimLeft(s: string, cutset: string): (r: string)
    ensures |r| <= |s| && r == s[|s| - |r|..]
    ensures forall k :: 0 <= k < |s| - |r| ==> s[k] in cutset
    ensures |r| > 0 ==> r[0] !in cutset
  {
    if |s| > 0 && s[0] in cutset then
      var r := TrimLeft(s[1..], cutset);
      assert s[1..][|s| - 1 - |r|..] == s[|s| - |r|..];
      assert forall k :: 1 <= k < |s| ==> s[k] == s[1..][k - 1];
      r
    else s
  }

  /** strings.TrimRight: drops the trailing `cutset` characters. */
  function TrimRight(s: string, cutset: string): (r: string)
    ensures |r| <= |s| && r == s[..|r|]
    ensures forall k :: |r| <= k < |s| ==> s[k] in cutset
    ensures |r| > 0 ==> r[|r| - 1] !in cutset
  {
    if |s| > 0 && s[|s| - 1] in cutset then
      var r := TrimRight(s[..|s| - 1], cutset);
      assert s[..|s| - 1][..|r|] == s[..|r|];
      assert forall k :: 0 <= k < |s| - 1 ==> s[k] == s[..|s| - 1][k];
      r
    else s
  }

  /** strings.Trim: drops both the leading and the trailing `cutset` characters. */
  function Trim(s: string, cutset: string): string
  {
    TrimRight(TrimLeft(s, cutset), cutset)
  }

  /** Trim keeps a contiguous middle part of `s` whose ends are not in `cutset`, and removes only `cutset` characters around it. */
  lemma TrimSpec(s: string, cutset: string)
    ensures |Trim(s, cutset)| <= |s|
    ensures exists a :: TrimmedAt(s, cutset, a, Trim(s, cutset))
  {
    var l := TrimLeft(s, cutset);
    var r := TrimRight(l, cutset);
    assert TrimmedAt(s, cutset, |s| - |l|, r) by {
      assert s[|s| - |l|..][..|r|] == s[|s| - |l|..|s| - |l| + |r|];
      forall k | |s| - |l| + |r| <= k < |s| ensures s[k] in cutset {
        assert l[k - (|s| - |l|)] == s[k];
      }
    }
  }

  /** TrimLeft removes exactly a leading run of `cutset` characters. */
  lemma {:induction false} TrimLeftPadded(pre: string, s: string, cutset: string)
    requires forall k :: 0 <= k < |pre| ==> pre[k] in cutset
    requires |s| > 0 && s[0] !in cutset
    ensures TrimLeft(pre + s, cutset) == s
  {
    if |pre| > 0 {
      assert (pre + s)[1..] == pre[1..] + s;
      TrimLeftPadded(pre[1..], s, cutset);
    }
  }

  /** TrimRight removes exactly a trailing run of `cutset` characters. */
  lemma {:induction false} TrimRightPadded(s: string, post: string, cutset: string)
    requires forall k :: 0 <= k < |post| ==> post[k] in cutset
    requires |s| > 0 && s[|s| - 1] !in cutset
    ensures TrimRight(s + post, cutset) == s
  {
    if |post| > 0 {
      assert (s + post)[..|s + post| - 1] == s + post[..|post| - 1];
      TrimRightPadded(s, post[..|post| - 1], cutset);
    } else {
      assert s + post == s;
    }
  }

  /** The trimmed result is unique: whatever is padded around a string whose ends are not in `cutset` is exactly what Trim removes. */
  lemma TrimPadded(pre: string, s: string, post: string, cutset: string)
    requires forall k :: 0 <= k < |pre| ==> pre[k] in cutset
    requires forall k :: 0 <= k < |post| ==> post[k] in cutset
    requires |s| > 0 && s[0] !in cutset && s[|s| - 1] !in cutset
    ensures Trim(pre + s + post, cutset) == s
  {
    assert pre + s + post == pre + (s + post);
    TrimLeftPadded(pre, s + post, cutset);
    TrimRightPadded(s, post, cutset);
  }

  /** TrimLeft stops at the first character of `s` when that is not in `cutset`, so it keeps a suffix of `pre` and all of `s`. */
  lemma TrimLeftAround(pre: string, s: string, cutset: string) returns (d: nat)
    requires |s| > 0 && s[0] !in cutset
    ensures d <= |pre| && TrimLeft(pre + s, cutset) == pre[d..] + s
  {
    var t := pre + s;
    var l := TrimLeft(t, cutset);
    d := |t| - |l|;
    assert d <= |pre| by {
      assert t[|pre|] == s[0];
    }
  }

  /** TrimRight stops at the last character of `s` when that is not in `cutset`, so it keeps all of `s` and a prefix of `post`. */
  lemma TrimRightAround(s: string, post: string, cutset: string) returns (e: nat)
    requires |s| > 0 && s[|s| - 1] !in cutset
    ensures e <= |post| && TrimRight(s + post, cutset) == s + post[..e]
  {
    var t := s + post;
    var r := TrimRight(t, cutset);
    assert |r| >= |s| by {
      assert t[|s| - 1] == s[|s| - 1];
    }
    e := |r| - |s|;
  }

  /**
   * Trim only cuts into the padding around a middle part whose ends are not
   * in `cutset`: it keeps a suffix of `pre`, the middle, and a prefix of `post`.
   */
  lemma TrimAround(pre: string, core: string, post: string, cutset: string) returns (d: nat, e: nat)
    requires |core| > 0 && core[0] !in cutset && core[|core| - 1] !in cutset
    ensures d <= |pre| && e <= |post|
    ensures Trim(pre + core + post, cutset) == pre[d..] + core + post[..e]
  {
    assert pre + core + post == pre + (core + post);
    d := TrimLeftAround(pre, core + post, cutset);
    var kept := pre[d..] + core;
    assert pre[d..] + (core + post) == kept + post;
    assert kept[|kept| - 1] == core[|core| - 1];
    e := TrimRightAround(kept, post, cutset);
  }

  /* ---------- strings.Split / strings.Join with a one-character separator ---------- */

  /** strings.Join(parts, string(sep)). */
  function Join(parts: seq<string>, sep: char): string
  {
    if |parts| == 0 then ""
    else if |parts| == 1 then parts[0]
    else parts[0] + [sep] + Join(parts[1..], sep)
  }

  /** strings.Split(s, string(sep)): at least one piece, no piece holds `sep`, and joining the pieces restores `s`. */
  function Split(s: string, sep: char): (r: seq<string>)
    ensures |r| >= 1
    ensures forall k :: 0 <= k < |r| ==> sep !in r[k]
    ensures Join(r, sep) == s
  {
    if |s| == 0 then [""]
    else
      var rest := Split(s[1..], sep);
      if s[0] == sep then
        assert s == [sep] + s[1..];
        [""] + rest
      else
        var r := [[s[0]] + rest[0]] + rest[1..];
        assert r[1..] == rest[1..];
        assert s == [s[0]] + s[1..];
        r
  }

  /** A string without the separator splits into itself. */
  lemma {:induction false} SplitNoSep(s: string, sep: char)
    requires sep !in s
    ensures Split(s, sep) == [s]
  {
    if |s| > 0 {
      SplitNoSep(s[1..], sep);
    }
  }

  /** Splitting `a + sep + t`, where `a` has no separator, yields `a` followed by the pieces of `t`. */
  lemma {:induction false} SplitAfterSep(a: string, sep: char, t: string)
    requires sep !in a
    ensures Split(a + [sep] + t, sep) == [a] + Split(t, sep)
  {
    if |a| == 0 {
      assert (a + [sep] + t)[1..] == t;
    } else {
      assert (a + [sep] + t)[1..] == a[1..] + [sep] + t;
      SplitAfterSep(a[1..], sep, t);
      assert [a[0]] + a[1..] == a;
    }
  }

  /** Round trip the other way: pieces without the separator are recovered by splitting their join. */
  lemma {:induction false} SplitJoin(parts: seq<string>, sep: char)
    requires |parts| >= 1
    requires forall k :: 0 <= k < |parts| ==> sep !in parts[k]
    ensures Split(Join(parts, sep), sep) == parts
  {
    if |parts| == 1 {
      SplitNoSep(parts[0], sep);
    } else {
      SplitJoin(parts[1..], sep);
      SplitAfterSep(parts[0], sep, Join(parts[1..], sep));
      assert [parts[0]] + parts[1..] == parts;
    }
  }

  /** `t` is the text of `s` before its first `sep`: a prefix free of `sep`, followed in `s` by `sep` or by nothing. */
  predicate BeforeFirst(s: string, sep: char, t: string)
  {
    t <= s && sep !in t && (|t| < |s| ==> s[|t|] == sep)
  }

  /** The characters of a separator-free prefix of `s` are not separators in `s`. */
  lemma SepFreePrefix(p: string, s: string, sep: char)
    requires p <= s && sep !in p
    ensures forall i :: 0 <= i < |p| ==> s[i] != sep
  {
    forall i | 0 <= i < |p|
      ensures s[i] != sep
    {
      assert p[i] == s[i];
    }
  }

  /** There is only one text before the first separator. */
  lemma BeforeFirstUnique(s: string, sep: char, t1: string, t2: string)
    requires BeforeFirst(s, sep, t1) && BeforeFirst(s, sep, t2)
    ensures t1 == t2
  {
    SepFreePrefix(t1, s, sep);
    SepFreePrefix(t2, s, sep);
  }

  /** The first piece of Split is the text before the first separator. */
  lemma SplitHead(s: string, sep: char)
    ensures BeforeFirst(s, sep, Split(s, sep)[0])
  {
    var parts := Split(s, sep);
    if |parts| > 1 {
      assert s == parts[0] + [sep] + Join(parts[1..], sep);
    }
  }

  /** A separator-free prefix of `s` is also a prefix of the first piece of `s`. */
  lemma PrefixOfSplitHead(p: string, s: string, sep: char)
    requires p <= s && sep !in p
    ensures p <= Split(s, sep)[0]
  {
    SplitHead(s, sep);
    SepFreePrefix(p, s, sep);
  }
}

=== FILE: pipeline.dfy ===
/**
 * From configuration lines to the clipboard: how the parser's display strings
 * feed the command formatter, and the worked configurations the program is
 * meant to handle.
 */
module Pipeline {
  import opened Wrappers
  import opened GoStrings
  import opened ConfigParser
  import opened Selector

  /* ---------- recognising the three directives ---------- */

  /** `Host <alias>` (in any letter case) opens an entry displayed as "<alias>: ", unless the line holds " *". */
  lemma HostLineOf(line: string, alias: string)
    requires ToLower(line) == "host " + alias && !Contains(ToLower(line), " *")
    ensures Classify(line) == HostLine
    ensures HostItem(line) == alias + ": "
  {
    var l := ToLower(line);
    assert Contains(l, "host ") by {
      assert OccursAt(l, "host ", 0);
      ContainsSpec(l, "host ");
    }
    assert HostItem(line) == alias + ": " by {
      FirstAtStart("host ", alias);
      HostItemShape(line, 0);
      assert l[5..] == alias;
    }
  }

  /**
   * `HostName <v>` in any letter case, with spaces and tabs around the keyword
   * and the value, is a HostName line whose value is `v`. The Host test must
   * fail on it: "host " must not occur in the value and the blanks after it
   * (a value ending in "host" followed by a space would pass it).
   */
  lemma HostNameLineOf(line: string, pre: string, gap: string, v: string, post: string)
    requires ToLower(line) == pre + "hostname " + gap + v + post
    requires Blanks(pre) && Blanks(gap) && Blanks(post)
    requires |v| > 0 && v[0] !in " \t" && v[|v| - 1] !in " \t"
    requires !Contains(v + post, "host ")
    ensures Classify(line) == HostNameLine
    ensures HostNameValue(line) == v
  {
    var l := ToLower(line);
    var a := pre + "hostname " + gap;
    Regroup(pre, "hostname ", gap, v, post);
    assert l == a + (v + post) && l[|pre|..|pre| + 9] == "hostname ";
    assert !Contains(l, "host ") by {
      PaddedKeywordLacks(pre, "hostname ", gap, 'h');
      forall i | 0 <= i < |a|
        ensures !OccursAt(l, "host ", i)
      {
        if i == |pre| {
          assert l[i + 4] == 'n';
          if i + 5 <= |l| {
            assert l[i..i + 5][4] == l[i + 4];
          }
        } else {
          NoOccurrenceAt(a, v + post, "host ", i);
        }
      }
      NotContainsAfter(a, v + post, "host ");
    }
    assert Contains(l, "hostname ") by {
      assert OccursAt(l, "hostname ", |pre|);
      ContainsSpec(l, "hostname ");
    }
    DirectiveValueOf(line, " ", "hostname ", pre, gap, v, post);
  }

  /**
   * `User <u>` in any letter case, with spaces and tabs around the keyword and
   * the value, is a User line whose value is `u`, as long as neither "host "
   * nor "hostname " occurs in the value and the blanks after it.
   */
  lemma UserLineOf(line: string, pre: string, gap: string, u: string, post: string)
    requires ToLower(line) == pre + "user " + gap + u + post
    requires Blanks(pre) && Blanks(gap) && Blanks(post)
    requires |u| > 0 && u[0] !in " \t" && u[|u| - 1] !in " \t"
    requires !Contains(u + post, "host ") && !Contains(u + post, "hostname ")
    ensures Classify(line) == UserLine
    ensures UserValue(line) == u
  {
    var l := ToLower(line);
    var a := pre + "user " + gap;
    Regroup(pre, "user ", gap, u, post);
    assert l == a + (u + post) && l[|pre|..|pre| + 5] == "user ";
    assert forall k :: 0 <= k < |a| ==> a[k] != 'h' by {
      PaddedKeywordLacks(pre, "user ", gap, 'h');
      assert a[|pre|] == 'u';
    }
    NotContainsAfterForeign(a, u + post, "host ");
    NotContainsAfterForeign(a, u + post, "hostname ");
    assert Contains(l, "user ") by {
      assert OccursAt(l, "user ", |pre|);
      ContainsSpec(l, "user ");
    }
    DirectiveValueOf(line, " \t", "user ", pre, gap, u, post);
  }

  /* ---------- a whole host block ---------- */

  /** Scanning a Host line after `lines` appends its entry. */
  lemma ScanHost(lines: seq<string>, st: Scan, line: string)
    requires Parse(lines) == Success(st) && Classify(line) == HostLine
    ensures Parse(lines + [line]) == Success(st.Open(|lines|, HostItem(line)))
  {
    ParseSnoc(lines, line);
  }

  /** Scanning a line that is no directive changes nothing. */
  lemma ScanOther(lines: seq<string>, line: string)
    requires Parse(lines).Success? && Classify(line) == OtherLine
    ensures Parse(lines + [line]) == Parse(lines)
  {
    ParseSnoc(lines, line);
  }

  /** Scanning a HostName line after `lines` rewrites only the last entry. */
  lemma ScanHostName(lines: seq<string>, pre: seq<string>, idx: seq<nat>, last: string, line: string)
    requires Parse(lines) == Success(Scan(idx, pre + [last])) && Classify(line) == HostNameLine
    ensures Parse(lines + [line]) == Success(Scan(idx, pre + [AddHostName(last, line)]))
  {
    ParseSnoc(lines, line);
    assert (pre + [last])[|pre| := AddHostName(last, line)] == pre + [AddHostName(last, line)];
  }

  /** Scanning a User line after `lines` rewrites only the last entry. */
  lemma ScanUser(lines: seq<string>, pre: seq<string>, idx: seq<nat>, last: string, line: string)
    requires Parse(lines) == Success(Scan(idx, pre + [last])) && Classify(line) == UserLine
    ensures Parse(lines + [line]) == Success(Scan(idx, pre + [AddUser(last, line)]))
  {
    ParseSnoc(lines, line);
    assert (pre + [last])[|pre| := AddUser(last, line)] == pre + [AddUser(last, line)];
  }

  /** Scanning a User line when there is exactly one entry rewrites that entry. */
  lemma ScanUserSingle(lines: seq<string>, idx: seq<nat>, last: string, line: string)
    requires Parse(lines) == Success(Scan(idx, [last])) && Classify(line) == UserLine
    ensures Parse(lines + [line]) == Success(Scan(idx, [AddUser(last, line)]))
  {
    ParseSnoc(lines, line);
    assert [last][0 := AddUser(last, line)] == [AddUser(last, line)];
  }

  /** Appending a third line to a two-line list. */
  lemma SnocPair(a: string, b: string, c: string)
    ensures [a, b] + [c] == [a, b, c]
  {
  }

  /** Appending three lines one at a time is appending them together. */
  lemma AppendThree(lines: seq<string>, a: string, b: string, c: string)
    ensures lines + [a] + [b] == lines + [a, b]
    ensures lines + [a, b] + [c] == lines + [a, b, c]
  {
  }

  /**
   * A Host line followed by a HostName and a User line, in either order,
   * appends the single entry "<host text><user>@<hostname>" and leaves the
   * earlier entries alone.
   */
  lemma BlockComposes(lines: seq<string>, st: Scan, hostLine: string, hostNameLine: string, userLine: string)
    requires Parse(lines) == Success(st)
    requires Classify(hostLine) == HostLine
    requires Classify(hostNameLine) == HostNameLine && Classify(userLine) == UserLine
    requires '@' !in HostItem(hostLine)
    requires '@' !in HostNameValue(hostNameLine) && '@' !in UserValue(userLine)
    ensures var entry := HostItem(hostLine) + UserValue(userLine) + "@" + HostNameValue(hostNameLine);
      && Parse(lines + [hostLine, hostNameLine, userLine]) == Success(st.Open(|lines|, entry))
      && Parse(lines + [hostLine, userLine, hostNameLine]) == Success(st.Open(|lines|, entry))
  {
    var idx := st.hostsIndex + [|lines|];
    var h := HostItem(hostLine);
    var entry := h + UserValue(userLine) + "@" + HostNameValue(hostNameLine);
    var withHost := lines + [hostLine];
    AppendThree(lines, hostLine, hostNameLine, userLine);
    AppendThree(lines, hostLine, userLine, hostNameLine);
    assert Parse(withHost) == Success(Scan(idx, st.items + [h])) by {
      ScanHost(lines, st, hostLine);
    }
    assert Parse(lines + [hostLine, hostNameLine, userLine]) == Success(Scan(idx, st.items + [entry])) by {
      AmendOrderIrrelevant(h, hostNameLine, userLine);
      ScanHostName(withHost, st.items, idx, h, hostNameLine);
      ScanUser(lines + [hostLine, hostNameLine], st.items, idx, AddHostName(h, hostNameLine), userLine);
    }
    assert Parse(lines + [hostLine, userLine, hostNameLine]) == Success(Scan(idx, st.items + [entry])) by {
      AmendOrderIrrelevant(h, hostNameLine, userLine);
      ScanUser(withHost, st.items, idx, h, userLine);
      ScanHostName(lines + [hostLine, userLine], st.items, idx, AddUser(h, userLine), hostNameLine);
    }
  }

  /** The same block at the top of a file gives a one-entry list with the Host line at index 0. */
  lemma BlockOpensConfig(hostLine: string, hostNameLine: string, userLine: string)
    requires Classify(hostLine) == HostLine
    requires Classify(hostNameLine) == HostNameLine && Classify(userLine) == UserLine
    requires '@' !in HostItem(hostLine)
    requires '@' !in HostNameValue(hostNameLine) && '@' !in UserValue(userLine)
    ensures var entry := HostItem(hostLine) + UserValue(userLine) + "@" + HostNameValue(hostNameLine);
      && Parse([hostLine, hostNameLine, userLine]) == Success(Scan([0], [entry]))
      && Parse([hostLine, userLine, hostNameLine]) == Success(Scan([0], [entry]))
  {
    var empty: seq<string> := [];
    var noIndex: seq<nat> := [];
    var entry := HostItem(hostLine) + UserValue(userLine) + "@" + HostNameValue(hostNameLine);
    assert noIndex + [0] == [0] && empty + [entry] == [entry];
    assert Parse(empty + [hostLine, hostNameLine, userLine]) == Success(Scan([0], [entry]))
        && Parse(empty + [hostLine, userLine, hostNameLine]) == Success(Scan([0], [entry])) by {
      assert Parse(empty) == Success(Scan(noIndex, empty));
      BlockComposes(empty, Scan(noIndex, empty), hostLine, hostNameLine, userLine);
    }
    assert empty + [hostLine, hostNameLine, userLine] == [hostLine, hostNameLine, userLine];
    assert empty + [hostLine, userLine, hostNameLine] == [hostLine, userLine, hostNameLine];
  }

  /** A file whose first line is a HostName or User line faults on line 0, whatever follows. */
  lemma OrphanOpening(lines: seq<string>)
    requires |lines| > 0 && Amends(lines[0])
    ensures Parse(lines) == Failure(NoEntryToAmend(0))
  {
    assert HasOrphan(lines) by {
      assert NoHostBefore(lines, 0);
    }
    ParseFaultsIffOrphan(lines);
    ParseFaultLine(lines);
  }

  /* ---------- from an entry to the clipboard ---------- */

  /** The command copied for a parsed entry is decided by its Host line alone, whatever HostName and User lines followed. */
  lemma EntryCommandFromHostLine(lines: seq<string>, k: nat)
    requires Parse(lines).Success? && k < |Parse(lines).value.items|
    requires var st := Parse(lines).value;
      k < |st.hostsIndex| && st.hostsIndex[k] < |lines| && '@' !in HostItem(lines[st.hostsIndex[k]])
    ensures var st := Parse(lines).value;
      CopyCommand(st.items[k]) == CopyCommand(HostItem(lines[st.hostsIndex[k]]))
  {
    var st := Parse(lines).value;
    var line := lines[st.hostsIndex[k]];
    ParseKeepsHostItem(lines);
    ParseEnumeratesHosts(lines);
    HostItemEndsWithColon(line);
    var h := HostItem(line);
    assert h[|h| - 2] == ':';
    CommandFromPrefix(h, st.items[k]);
  }

  /**
   * Choosing the entry of `Host <alias>` with Enter copies exactly
   * "ssh <alias>" and says so, when the alias holds no '@' or ':'.
   */
  lemma ChoosingAnEntryCopiesItsAlias(lines: seq<string>, k: nat, alias: string)
    requires Parse(lines).Success? && k < |Parse(lines).value.items|
    requires var st := Parse(lines).value;
      k < |st.hostsIndex| && st.hostsIndex[k] < |lines| && ToLower(lines[st.hostsIndex[k]]) == "host " + alias
    requires '@' !in alias && ':' !in alias
    ensures var item := Parse(lines).value.items[k];
      View(Update(Initial, Key("enter"), Some(item)).0)
        == Copied("ssh " + alias, "'ssh " + alias + "' copied to clipboard")
  {
    var st := Parse(lines).value;
    var item := st.items[k];
    assert item != "" && Target(item) == alias by {
      var line := lines[st.hostsIndex[k]];
      assert !Contains(ToLower(line), " *") by {
        ParseEnumeratesHosts(lines);
        assert Classify(line) == HostLine;
      }
      HostLineOf(line, alias);
      assert '@' !in alias + ": ";
      EntryCommandFromHostLine(lines, k);
      CommandOfEntry(alias, "");
      assert alias + ": " + "" == alias + ": ";
      assert CopyCommand(item) == Some("ssh " + alias);
      assert ("ssh " + alias)[4..] == alias;
    }
    EnterThenView(Initial, item);
  }

  /* ---------- worked configurations ---------- */

  /** `Host foo` opens the entry "foo: ". */
  lemma ExampleHostFoo(line: string)
    requires line == "Host foo"
    ensures Classify(line) == HostLine && HostItem(line) == "foo: "
  {
    assert ToLower(line) == "host " + "foo" by {
      ToLowerSpec(line);
    }
    assert !Contains(ToLower(line), " *") by {
      NotContainsByChar(ToLower(line), " *", '*');
    }
    HostLineOf(line, "foo");
    assert "foo" + ": " == "foo: ";
  }

  /** `HostName 1.2.3.4` is a HostName line with value "1.2.3.4". */
  lemma ExampleHostName(line: string)
    requires line == "HostName 1.2.3.4"
    ensures Classify(line) == HostNameLine && HostNameValue(line) == "1.2.3.4"
  {
    var v := "1.2.3.4";
    assert !Contains(v, "host ") && |v| > 0 && v[0] !in " \t" && v[|v| - 1] !in " \t" by {
      NotContainsByChar(v, "host ", 'h');
    }
    assert ToLower(line) == "" + "hostname " + "" + v + "" by {
      LowerHostName(line);
      assert "" + "hostname " + "" + v + "" == "hostname 1.2.3.4";
    }
    assert v + "" == v;
    HostNameLineOf(line, "", "", v, "");
  }

  /** Lower-casing `HostName 1.2.3.4` touches only the two capitals. */
  lemma LowerHostName(line: string)
    requires line == "HostName 1.2.3.4"
    ensures ToLower(line) == "hostname 1.2.3.4"
  {
    ToLowerSpec(line);
  }

  /** `User bob` is a User line with value "bob". */
  lemma ExampleUser(line: string)
    requires line == "User bob"
    ensures Classify(line) == UserLine && UserValue(line) == "bob"
  {
    var u := "bob";
    assert !Contains(u, "host ") && !Contains(u, "hostname ") by {
      NotContainsByChar(u, "host ", 'h');
      NotContainsByChar(u, "hostname ", 'h');
    }
    assert ToLower(line) == "" + "user " + "" + u + "" by {
      ToLowerSpec(line);
      assert "" + "user " + "" + u + "" == "user bob";
    }
    assert u + "" == u;
    UserLineOf(line, "", "", u, "");
  }

  /** The three lines of the `foo` block meet the requirements of BlockOpensConfig, and their entry is "foo: bob@1.2.3.4". */
  lemma ExampleBlockLines(host: string, hostName: string, user: string)
    requires host == "Host foo" && hostName == "HostName 1.2.3.4" && user == "User bob"
    ensures Classify(host) == HostLine && Classify(hostName) == HostNameLine && Classify(user) == UserLine
    ensures '@' !in HostItem(host) && '@' !in HostNameValue(hostName) && '@' !in UserValue(user)
    ensures HostItem(host) + UserValue(user) + "@" + HostNameValue(hostName) == "foo: bob@1.2.3.4"
  {
    assert "foo: " + "bob" + "@" + "1.2.3.4" == "foo: bob@1.2.3.4";
    assert '@' !in "foo: " && '@' !in "1.2.3.4" && '@' !in "bob";
    ExampleHostFoo(host);
    ExampleHostName(hostName);
    ExampleUser(user);
  }

  /** `Host foo`, `HostName 1.2.3.4`, `User bob` gives the single entry "foo: bob@1.2.3.4". */
  lemma ExampleBlock(host: string, hostName: string, user: string)
    requires host == "Host foo" && hostName == "HostName 1.2.3.4" && user == "User bob"
    ensures Parse([host, hostName, user]) == Success(Scan([0], ["foo: bob@1.2.3.4"]))
  {
    ExampleBlockLines(host, hostName, user);
    BlockOpensConfig(host, hostName, user);
  }

  /** The same block with the User line before the HostName line gives the same entry. */
  lemma ExampleBlockSwapped(host: string, hostName: string, user: string)
    requires host == "Host foo" && hostName == "HostName 1.2.3.4" && user == "User bob"
    ensures Parse([host, user, hostName]) == Success(Scan([0], ["foo: bob@1.2.3.4"]))
  {
    ExampleBlockLines(host, hostName, user);
    BlockOpensConfig(host, hostName, user);
  }

  /** A lone `Host bar` gives exactly "bar: ". */
  lemma ExampleLoneHost(line: string)
    requires line == "Host bar"
    ensures Parse([line]) == Success(Scan([0], ["bar: "]))
  {
    assert ToLower(line) == "host " + "bar" by {
      ToLowerSpec(line);
    }
    assert !Contains(ToLower(line), " *") by {
      NotContainsByChar(ToLower(line), " *", '*');
    }
    HostLineOf(line, "bar");
    assert "bar" + ": " == "bar: ";
    var empty: seq<string> := [];
    ParseSnoc(empty, line);
    assert empty + [line] == [line];
    assert Parse(empty) == Success(Scan([], []));
    assert Scan([] + [0], [] + ["bar: "]) == Scan([0], ["bar: "]);
  }

  /** A commented-out `# Host old` still holds "host ", so it opens the entry "# old: ". */
  lemma ExampleCommentedHost(line: string)
    requires line == "# Host old"
    ensures Classify(line) == HostLine && HostItem(line) == "# old: "
  {
    var l := ToLower(line);
    assert l == "# " + "host " + "old" by {
      ToLowerSpec(line);
    }
    assert FirstAt(l, "host ", 2) by {
      FirstAtAfter("# ", "host ", "old");
    }
    assert Contains(l, "host ") && !Contains(l, " *") by {
      ContainsSpec(l, "host ");
      NotContainsByChar(l, " *", '*');
    }
    HostItemShape(line, 2);
    assert l[..2] + l[7..] + ": " == "# old: ";
  }

  /** The keywords end in a space, so `HostName` followed by a tab is no directive at all. */
  lemma ExampleTabAfterKeyword(line: string)
    requires line == "HostName\t1.2.3.4"
    ensures Classify(line) == OtherLine
  {
    var l := ToLower(line);
    assert ' ' !in l by {
      ToLowerSpec(line);
      assert |l| == |line|;
      forall k | 0 <= k < |l|
        ensures l[k] != ' '
      {
        assert l[k] == LowerChar(line[k]);
      }
    }
    NotContainsByChar(l, "host ", ' ');
    NotContainsByChar(l, "hostname ", ' ');
    NotContainsByChar(l, "user ", ' ');
  }

  /** Choosing the entry "foo: bob@1.2.3.4" copies "ssh foo". */
  lemma ExampleCommand()
    ensures CopyCommand("foo: bob@1.2.3.4") == Some("ssh foo")
  {
    CommandOfEntry("foo", "bob@1.2.3.4");
    assert "foo" + ": " + "bob@1.2.3.4" == "foo: bob@1.2.3.4";
    assert "ssh " + "foo" == "ssh foo";
  }

  /** `Host *` is no directive at all. */
  lemma ExampleWildcardLine(line: string)
    requires line == "Host *"
    ensures Classify(line) == OtherLine
  {
    var l := ToLower(line);
    assert l == "host *" by {
      ToLowerSpec(line);
    }
    assert OccursAt(l, " *", 4);
    ContainsSpec(l, " *");
    NotContainsByChar(l, "hostname ", 'n');
    NotContainsByChar(l, "user ", 'u');
  }

  /** `Host *` opens nothing, so a User line under it amends the entry before it: the result is "foo: bob". */
  lemma ExampleWildcardBlock(host: string, wildcard: string, user: string)
    requires host == "Host foo" && wildcard == "Host *" && user == "User bob"
    ensures Parse([host, wildcard, user]) == Success(Scan([0], ["foo: bob"]))
  {
    assert AddUser("foo: ", user) == "foo: bob" by {
      assert "foo: " + "bob" == "foo: bob";
      assert '@' !in "foo: ";
      ExampleUser(user);
      AddUserNoAt("foo: ", user);
    }
    ExampleHostThenWildcard(host, wildcard);
    ExampleUser(user);
    ScanUserSingle([host, wildcard], [0], "foo: ", user);
    SnocPair(host, wildcard, user);
  }

  /** The opening lines of the wildcard example: the `Host *` line is passed over. */
  lemma ExampleHostThenWildcard(host: string, wildcard: string)
    requires host == "Host foo" && wildcard == "Host *"
    ensures Parse([host, wildcard]) == Success(Scan([0], ["foo: "]))
  {
    assert Parse([host]) == Success(Scan([0], ["foo: "])) by {
      ExampleHostFoo(host);
      var empty: seq<string> := [];
      assert Parse(empty) == Success(Scan([], []));
      ParseSnoc(empty, host);
      assert empty + [host] == [host];
      assert Scan([] + [0], [] + ["foo: "]) == Scan([0], ["foo: "]);
    }
    ExampleWildcardLine(wildcard);
    ScanOther([host], wildcard);
    assert [host] + [wildcard] == [host, wildcard];
  }

  /** A HostName or User line right after a leading line that is no directive has no entry to amend: the scan faults on line 1. */
  lemma OrphanAfterOther(other: string, amend: string)
    requires Classify(other) == OtherLine && Amends(amend)
    ensures Parse([other, amend]) == Failure(NoEntryToAmend(1))
  {
    var lines := [other, amend];
    assert HasOrphan(lines) by {
      assert NoHostBefore(lines, 1);
    }
    ParseFaultsIffOrphan(lines);
    ParseFaultLine(lines);
  }

  /** A User line under a leading `Host *` has no entry to amend: the scan faults on line 1. */
  lemma ExampleWildcardFirst(wildcard: string, user: string)
    requires wildcard == "Host *" && user == "User bob"
    ensures Parse([wildcard, user]) == Failure(NoEntryToAmend(1))
  {
    ExampleWildcardLine(wildcard);
    ExampleUser(user);
    OrphanAfterOther(wildcard, user);
  }

  /** A HostName line before any Host line is the fault on line 0. */
  lemma ExampleOrphan(hostName: string, host: string)
    requires hostName == "HostName 1.2.3.4" && host == "Host foo"
    ensures Parse([hostName, host]) == Failure(NoEntryToAmend(0))
  {
    assert Amends(hostName) by {
      ExampleHostName(hostName);
    }
    OrphanOpening([hostName, host]);
  }
}

=== FILE: selector.dfy ===
/**
 * The interactive half of the program, reduced to what it computes: the key
 * handling of the list model and the command its final view copies to the
 * clipboard. The list widget itself (navigation, filtering, rendering) and
 * the clipboard write are outside the model; the item under the cursor is
 * passed in as an Option.
 */
module Selector {
  import opened Wrappers
  import opened GoStrings

  /** The messages the model reacts to; a key is named as the terminal library prints it ("enter", "ctrl+c", "j", ...). */
  datatype Msg = WindowSize(width: int) | Key(keypress: string) | OtherMsg

  /** What Update hands back to the runtime: nothing, the quit command, or whatever the list widget returned (`ListCmd`, not modelled, which may itself be a quit). */
  datatype Cmd = NoCmd | QuitCmd | ListCmd

  /** The model's own fields; the embedded list widget is not modelled. */
  datatype Model = Model(choice: string, quitting: bool)

  /** The screen View draws: the confirmation after a copy, or the list. */
  datatype Screen = Copied(clipboard: string, message: string) | ListScreen

  /** The initial model: nothing chosen, not quitting. */
  const Initial := Model("", false)

  /**
   * One message. `selected` is the item under the cursor, None when the list
   * is empty. Ctrl+C and Enter quit; only Enter on an item changes the choice;
   * every other key goes to the list widget.
   */
  function Update(m: Model, msg: Msg, selected: Option<string>): (r: (Model, Cmd))
    ensures r.1 == QuitCmd <==> msg == Key("ctrl+c") || msg == Key("enter")
    ensures r.0.quitting <==> m.quitting || msg == Key("ctrl+c")
    ensures r.0.choice != m.choice ==> msg == Key("enter") && selected == Some(r.0.choice)
    ensures msg == Key("enter") && selected.Some? ==> r.0.choice == selected.value
  {
    match msg
    case WindowSize(_) => (m, NoCmd)
    case Key(k) =>
      if k == "ctrl+c" then (m.(quitting := true), QuitCmd)
      else if k == "enter" then
        (if selected.Some? then m.(choice := selected.value) else m, QuitCmd)
      else (m, ListCmd)
    case OtherMsg => (m, ListCmd)
  }

  /** The connection target of a display string: its text before the first ':'. */
  function Target(choice: string): (t: string)
    ensures BeforeFirst(choice, ':', t)
  {
    SplitHead(choice, ':');
    Split(choice, ':')[0]
  }

  /** The clipboard text for a choice: "ssh " and the target; no command at all for the empty choice. */
  function CopyCommand(choice: string): (r: Option<string>)
    ensures r.None? <==> choice == ""
    ensures r.Some? ==> |r.value| >= 4 && r.value[..4] == "ssh "
    ensures r.Some? ==> BeforeFirst(choice, ':', r.value[4..])
  {
    if choice == "" then None
    else
      var cmd := "ssh " + Target(choice);
      assert cmd[4..] == Target(choice);
      Some(cmd)
  }

  /** What View shows: with a choice, the command it copied and the confirmation naming it; otherwise the list. */
  function View(m: Model): (r: Screen)
    ensures r.Copied? <==> m.choice != ""
    ensures r.Copied? ==> CopyCommand(m.choice) == Some(r.clipboard)
    ensures r.Copied? ==> r.message == "'" + r.clipboard + "' copied to clipboard"
  {
    match CopyCommand(m.choice)
    case None => ListScreen
    case Some(cmd) => Copied(cmd, "'" + cmd + "' copied to clipboard")
  }

  /** A display string that opens with a ':'-free alias and ": " yields the command "ssh <alias>", whatever follows. */
  lemma CommandOfEntry(alias: string, rest: string)
    requires ':' !in alias
    ensures CopyCommand(alias + ": " + rest) == Some("ssh " + alias)
  {
    var s := alias + ": " + rest;
    assert s[|alias|] == ':';
    assert alias <= s;
    BeforeFirstUnique(s, ':', Target(s), alias);
  }

  /** Text appended after the first ':' never changes the command. */
  lemma CommandFromPrefix(p: string, s: string)
    requires p <= s && ':' in p
    ensures CopyCommand(s) == CopyCommand(p)
  {
    var t := Target(p);
    assert p[..|p|] == p;
    assert |t| < |p|;
    assert t <= s && s[|t|] == p[|t|];
    BeforeFirstUnique(s, ':', Target(s), t);
  }

  /** Enter on an empty list quits without a choice: nothing is copied and the list is shown. */
  lemma EnterOnEmptyList()
    ensures Update(Initial, Key("enter"), None) == (Initial, QuitCmd)
    ensures View(Update(Initial, Key("enter"), None).0) == ListScreen
  {
  }

  /** Enter on an item, then View, copies the item's command and names it in the confirmation. */
  lemma EnterThenView(m: Model, item: string)
    requires item != ""
    ensures var m' := Update(m, Key("enter"), Some(item)).0;
      View(m') == Copied("ssh " + Target(item), "'ssh " + Target(item) + "' copied to clipboard")
  {
  }

  /** Ctrl+C quits and leaves the choice alone, so nothing new is copied. */
  lemma CtrlCKeepsChoice(m: Model, selected: Option<string>)
    ensures Update(m, Key("ctrl+c"), selected) == (Model(m.choice, true), QuitCmd)
  {
  }
}

=== FILE: wrappers.dfy ===
/** Option and Result, shared by the parser and the selector. */
module Wrappers {

  /** An optional value, used where the Go code has a `(value, ok)` pair or a -1 index. */
  datatype Option<+T> = None | Some(value: T)

  /** Either a value or the reason the Go program would have panicked. */
  datatype Result<+T, +E> = Success(value: T) | Failure(error: E)
}
